=== FILE: README.md ===
# Mina indexer reward distribution in Dafny

This project models how the Mina indexer splits one block's reward between the
validator that produced the block and the delegators staking with it.

- `calculate.dfy` (module `Calculate`) holds the reward arithmetic of
  `model/util/calculate.go`:
  - a stake's weight is `balance / totalStaked`;
  - the validator's cut is `blockReward * fee / 100`;
  - a delegator's cut is `blockReward * (100 - fee) / 100 * weight`.

  Each calculation has its own error exits. Amounts are `Option<int>`, where
  `None` is a nil `big.Int`. A nil amount is taken to be the only amount that
  fails to parse. This assumes `types.Amount` uses `big.Int`'s own `String`,
  which renders nil as `<nil>`; the `types` package is not part of this
  model. Fees and weights are exact rationals (`real`).
- `reward_calculation.dfy` (module `RewardCalculation`) holds the run of
  `indexing/reward_calculation.go`. It is a total function `Run(passing, store,
  env, block)`. It returns the run's outcome and the store calls made, in order.
  - Each store lookup is an abstract outcome: `Found`, `NotFound` or `StoreError`.
  - Each import is recorded in the call trace.
  - The helpers whose code is not part of this model are function-typed
    parameters (`Collaborators`) that may fail. These are the two weighting
    policies, the supercharged weighting factor and the two reward-record mappers.
  - `passing` says how the epoch's fee reaches the reward calculations.
    `Run(Shared, …)` is the run as written: every calculation receives the
    same fee number and rescales it in place, so each one sees the fee the
    calculations before it left (see Findings). `Run(ByValue, …)` is the
    corrected run, where every calculation sees the epoch's fee.
- `reward_calculation_properties.dfy` (module `RewardCalculationProperties`)
  states what a run promises, for both kinds of fee passing unless named:
  - every early exit, and that it imports nothing;
  - that `Supercharged` selects exactly one weighting policy;
  - that the delegator import comes before the validator import;
  - that a run whose every step succeeds ends in success with two imports;
  - that the run as written pays what the as-written split pays, and that the
    corrected run pays out exactly the block reward.
- `fee_aliasing.dfy` (module `FeeAliasing`) models the fee write-back that the
  Go code performs, and what it costs (see Findings).
- `wrappers.dfy` (module `Wrappers`) holds `Option` and `Result`.

Three behaviours of the source are worth knowing. The model follows the source
in the last two. In the first it stops where the source goes on.
- When the first-block lookup comes back NotFound, the source does not stop.
  The NotFound branch at `indexing/reward_calculation.go:50-53` only returns
  for other errors, and line 58 then reads `Slot` from the block it did not
  find. A nil block panics there. A zero-valued block returned together with
  NotFound lets the run carry on at slot 0, weigh, and possibly import. The
  model does not follow either path: it ends the run at that lookup in the
  outcome `Unspecified`, with nothing imported (see Left out).
- The source imports the delegator rewards (`:99`) before it drafts the
  validator reward (`:103-106`) and computes it (`:107-111`). A failure in
  either of those steps therefore follows a write
  (`ValidatorFailureFollowsDelegatorImport`).
- The source takes the fee of the first validator-epoch record the lookup
  returns (`:29`) and ignores any others.

## Model

| member | source | states |
|---|---|---|
| Calculate.CalculateWeight | model/util/calculate.go:11-26 | An unparsable balance is the balance error even when the total is zero. A zero total is an error for every parsable balance. Success happens exactly when both amounts parse and the total is non-zero. The weight times the total is then the balance. |
| Calculate.CalculateValidatorReward | model/util/calculate.go:29-42 | Fails exactly when the block reward does not parse, with the block-reward error. Otherwise 100 times the reward equals block reward times the fee at entry. |
| Calculate.CalculateDelegatorReward | model/util/calculate.go:45-61 | Fails exactly when the block reward does not parse, with the stake-amount error. Otherwise 100 times the reward equals block reward times (100 − fee at entry) times the weight. |
| Calculate.WeightInUnitInterval | model/util/calculate.go:11-26 | For 0 ≤ balance ≤ total and total > 0, the weight succeeds and lies in [0, 1]. |
| Calculate.WeightsSumToOne | model/util/calculate.go:11-26 | Weighting every stake of a ledger against the ledger's own non-zero total gives weights that add up to exactly 1. |
| Calculate.ZeroTotalFailsEveryBalance | model/util/calculate.go:12-19 | With a zero total, the weight of every balance, parsable or not, is an error. |
| Calculate.ZeroFeeValidatorReward | model/util/calculate.go:35-36 | With fee 0, the validator reward is 0. |
| Calculate.FullFeeDelegatorReward | model/util/calculate.go:50-59 | With fee 100, every delegator reward is 0, whatever the weight. |
| Calculate.Complementarity | model/util/calculate.go:35-59 | At one fee, the validator reward plus a full-weight delegator reward is the block reward. |
| Calculate.DelegatorRewardAdditive | model/util/calculate.go:58-59 | The delegator reward of a sum of weights is the sum of their delegator rewards. |
| Calculate.DelegatorRewardHomogeneous | model/util/calculate.go:58-59 | Scaling the weight scales the delegator reward by the same factor. |
| Calculate.DelegatorRewardMonotone | model/util/calculate.go:50-59 | For a block reward ≥ 0 and a fee ≤ 100, a larger weight never gives a smaller delegator reward. |
| Calculate.DelegatorRewardsTotal | model/util/calculate.go:50-59 | The delegator rewards of a list of weights add up to the delegator reward of the weights' sum. |
| Calculate.SplitIsExact | model/util/calculate.go:35-59 | When the weights add up to 1, the validator reward plus every delegator reward, all at one fee, is exactly the block reward. |
| Calculate.WorkedExample | model/util/calculate.go:11-59 | Stakes 600 and 400 of 1000, reward 100 and fee 10 give weights 0.6 and 0.4, a validator reward of 10 and delegator rewards of 54 and 36. These add up to 100. |
| RewardCalculation.BlockRewardOf | indexing/reward_calculation.go:33-34 | The block reward is present, and it plus the SNARK-job fees is the coinbase plus the transaction fees. |
| RewardCalculation.Weigh | indexing/reward_calculation.go:60-74 | A plain block is weighted by the proportional policy against the ledger's staked amount. A supercharged block fails with the factor's error when the factor fails, and is otherwise weighted by the supercharged policy with that factor and the first slot of the epoch. |
| RewardCalculation.WeightMap | indexing/reward_calculation.go:76-79 | No records give an empty map; otherwise the last record's key maps to its weight. |
| Calculate.DelegatorRewards | model/util/calculate.go:45-61 | The i-th reward of a list is the delegator reward of the i-th weight, for one block reward and one fee. |
| RewardCalculation.WeightMapKeys | indexing/reward_calculation.go:76-79 | A public key has a weight in the record map exactly when some weighted record carries it. |
| RewardCalculation.WeightMapLastWins | indexing/reward_calculation.go:76-79 | A key carried by several records gets the weight of the last one. |
| RewardCalculation.FillDelegatorRewards | indexing/reward_calculation.go:85-97 | Succeeds exactly when every drafted owner has a weight and the block reward parses. Each filled record differs from its draft only in the reward. The i-th reward is the delegator reward of its owner's weight at the fee the calculations before it left: the fee rescaled i times as written (`Shared`), the epoch's fee when passed by value. The loop leaves the fee rescaled once per delegator as written. Otherwise the error names the first owner without a weight. |
| RewardCalculation.Prepare | indexing/reward_calculation.go:22-84 | Never imports. The first call is the validator-fee lookup for (epoch, creator). When it reaches the split, it uses the fee of the first ValidatorEpoch returned and coinbase + transaction fees − SNARK-job fees as the block reward. |
| RewardCalculation.Distribute | indexing/reward_calculation.go:85-116 | A failed delegator loop imports nothing. Otherwise the first call imports the filled delegator rewards. A second import, if any, follows a successful first import. It is a one-element list holding the validator mapper's draft with only its reward replaced, by the validator reward at the fee the delegator loop left. Once the delegator import, the draft and the block reward succeed, the second import happens. The run is done exactly when both imports happened and both succeeded. |
| RewardCalculation.Run | indexing/reward_calculation.go:17-117 | A missing Coinbase, TransactionsFees or SnarkJobsFees gives success with no store call at all. Otherwise the fee lookup comes first. A run never fails with an arithmetic error. `Run(Shared, …)` passes the fee as the source does. |
| RewardCalculationProperties.FeeLookupErrorPropagates | indexing/reward_calculation.go:22-24 | A fee lookup error other than NotFound is returned unchanged, after that lookup alone. |
| RewardCalculationProperties.MissingFeeIsHardError | indexing/reward_calculation.go:22-27 | A NotFound or empty fee list is the error "validator fee for epoch not found", after that lookup alone. |
| RewardCalculationProperties.MissingLedgerDefers | indexing/reward_calculation.go:36-42 | Once the fee is found, a NotFound ledger gives success after the fee and ledger lookups only. |
| RewardCalculationProperties.LedgerErrorPropagates | indexing/reward_calculation.go:36-39 | Any other ledger error is returned unchanged after the same two lookups. |
| RewardCalculationProperties.RecordsLookupErrorPropagates | indexing/reward_calculation.go:44-47 | Any other ledger-records error is returned unchanged after the fee, ledger and records lookups, with nothing imported. |
| RewardCalculationProperties.RecordsNotFoundCarriesOn | indexing/reward_calculation.go:44-47 | A NotFound ledger-records lookup gives the same run, trace included, as a lookup that found no records. |
| RewardCalculationProperties.FirstBlockLookupExits | indexing/reward_calculation.go:49-58 | A nil first block is an error and a failed lookup is propagated. NotFound ends the modelled run in `Unspecified`. In the model, none of the three imports anything; for NotFound that is the model's choice, not the source's (see Left out). |
| RewardCalculationProperties.WeightingErrorPropagates | indexing/reward_calculation.go:60-74 | A failing weighting pass, in either branch, aborts with its error and imports nothing. |
| RewardCalculationProperties.DelegatorMapperErrorPropagates | indexing/reward_calculation.go:81-84 | A failing delegator-reward mapper, after a successful weighting pass, aborts with its error and imports nothing. |
| RewardCalculationProperties.ReadyPlanIsWeighted | indexing/reward_calculation.go:29-84 | Once the first block is found and the weighting pass and the delegator mapper succeed, the run is ready to split. The plan holds the first record's fee, the block reward, the weight map built from the weighted records, and the mapper's drafts. |
| RewardCalculationProperties.ReadyOnlyAfterWeighing | indexing/reward_calculation.go:44-84 | Conversely, a run that is ready to split found the first block, and its weighting pass and delegator mapper succeeded. Its weights are the weight map of the weighted records, and its drafts are the mapper's output. |
| RewardCalculationProperties.PlainBlockIgnoresSuperchargedPolicy | indexing/reward_calculation.go:60-64 | For a non-supercharged block, the run does not depend on the supercharged factor or policy. |
| RewardCalculationProperties.SuperchargedBlockIgnoresPlainPolicy | indexing/reward_calculation.go:65-74 | For a supercharged block, the run does not depend on the proportional policy. |
| RewardCalculationProperties.RunReadsWeighing | indexing/reward_calculation.go:60-116 | Two helper sets that agree on the mappers and whose weighting passes agree give the same run. |
| RewardCalculationProperties.ImportsOnlyAfterFullSplit | indexing/reward_calculation.go:76-101 | Anything imported means every lookup, the weighting and the whole delegator loop succeeded. The first import is exactly the filled delegator rewards. |
| RewardCalculationProperties.MissingWeightImportsNothing | indexing/reward_calculation.go:85-91 | "record is not found for owner" names a drafted owner without a weight, and nothing was imported. |
| RewardCalculationProperties.CompletedRunImportsTwice | indexing/reward_calculation.go:99-116 | A completed run that imports does so exactly twice, and both imports succeeded. The first holds all delegator rewards. The second is a one-element list holding the validator mapper's draft, whose reward is the validator reward at the fee the delegator loop left. |
| RewardCalculationProperties.SuccessfulRunIsDone | indexing/reward_calculation.go:85-116 | A run whose lookups, weighting, delegator loop, validator draft and both imports succeed ends in success with two imports. |
| RewardCalculationProperties.DeferredRunImportsNothing | indexing/reward_calculation.go:17-42 | A successful run without imports was deferred: the reward inputs were missing, or the fee was found and the ledger lookup came back NotFound. |
| RewardCalculationProperties.ValidatorFailureFollowsDelegatorImport | indexing/reward_calculation.go:99-106 | If drafting the validator reward fails after the delegator import succeeded, the run fails and the delegator rewards stay imported. |
| RewardCalculationProperties.DelegatorImportErrorStops | indexing/reward_calculation.go:99-101 | A failed delegator import ends the run with that error unchanged, with nothing imported after it. |
| RewardCalculationProperties.ImportErrorPropagates | indexing/reward_calculation.go:99-116 | The error of whichever import fails last is the run's error, unchanged. |
| RewardCalculationProperties.FilledRewardsTotal | indexing/reward_calculation.go:85-97 | With the fee passed by value, the filled delegator rewards add up to the delegator reward of the owners' weights' sum. |
| RewardCalculationProperties.CompletedRunIsExact | indexing/reward_calculation.go:29-116 | For the corrected run (`ByValue`): when the delegators' weights add up to 1, a completed run's two imports pay out exactly coinbase + transaction fees − SNARK-job fees. The run as written does not (Findings). |
| RewardCalculationProperties.CompletedRunAsWritten | indexing/reward_calculation.go:85-116 | A completed run as written (`Shared`) imports what the as-written split pays: the i-th delegator at the fee rescaled i times, the validator at the fee rescaled once per delegator. |
| FeeAliasing.ValidatorRewardInPlace | model/util/calculate.go:29-42 | The validator reward as written: the reward is at the entry fee, and the shared fee becomes fee / 100 unless the reward failed to parse. |
| FeeAliasing.DelegatorRewardInPlace | model/util/calculate.go:45-61 | The delegator reward as written: the reward is at the entry fee, and the shared fee becomes (100 − fee) / 100 unless the reward failed to parse. |
| FeeAliasing.DelegatorLoopInPlace | indexing/reward_calculation.go:85-97 | In the loop as written, the i-th delegator is paid at the fee rescaled i times. The loop leaves the fee rescaled once per delegator. |
| FeeAliasing.SplitInPlace | indexing/reward_calculation.go:85-111 | In the split as written, the delegators are paid what the as-written loop pays, and the validator is paid at the fee rescaled once per delegator. |
| FeeAliasing.AliasedSplitLosesReward | indexing/reward_calculation.go:85-111 | Weights 0.6 and 0.4, reward 100 and fee 10 pay 54, 39.64 and 0.991 as written, which is 94.631 rather than 100. |
| FeeAliasing.SingleDelegatorInPlace | indexing/reward_calculation.go:85-111 | With one full-weight delegator, the split as written pays 1.01 times the delegators' share. |

## Left out

- Finite precision of `big.Float` is left out, and so are the string round-trips `NewPercentage(… .String())` and `NewAmount(… .String())`. The exactness lemmas hold for the rational model, not bit for bit for the Go code.
- Calculate.CalculateWeight: the zero check is `total = 0`. The `Int64()` truncation at `model/util/calculate.go:17` is not modelled, so a total that is a non-zero multiple of 2^64 is treated as non-zero.
- Calculate.CalculateWeight: a nil total maps to "error with total staked amount". The `types` package is not part of this model. If its `Int64` is `big.Int`'s own method, a nil total panics at line 17 instead.
- The checks `if !ok` at `model/util/calculate.go:37-39` and `:54-56` are unreachable, because `ok` is already true there. They are not modelled.
- The weighting policies `CalculateWeightsNonSupercharged`, `CalculateSuperchargedWeighting` and `CalculateWeightsSupercharged` are not part of this model. They are parameters that return the re-weighted records or an error.
- The mappers `mapper.DelegatorBlockRewards` and `mapper.ValidatorBlockReward` are not part of this model either. They are parameters that return draft reward records or an error.
- The store, the database and logging become lookup outcomes and a call trace. The epoch key of `strconv.Itoa(block.Epoch)` is kept as the integer itself.
- RewardCalculationProperties.FirstBlockLookupExits: the model ends the run at a NotFound first-block lookup, with outcome `Unspecified` and nothing imported. The source falls through to `indexing/reward_calculation.go:58`. There it panics on a nil block, or carries on at a zero-valued block's slot, weighs and may import. The store is not part of this model, so which one happens is not modelled.
- RewardCalculationProperties.RecordsNotFoundCarriesOn: a NotFound ledger-records lookup is read as "no records". A store that returned NotFound together with some records would have the source weigh those records; the lookup abstraction rules that combination out.
- The fee lookup's NotFound carries no rows. A store that returned NotFound together with a non-empty list would make `indexing/reward_calculation.go:30-31` return `ErrNotFound`. The lookup abstraction rules that combination out.
- A nil fee pointer and a nil weight pointer are not modelled. Fees and weights are always numbers.
- `indexing/prepare.go`, `indexing/data.go` and `server/server.go` are payload mapping, a plain record and HTTP plumbing, with no reward logic.

## Findings

| source | as written | input that shows it | evidently intended | confidence | as-written member | corrected member |
|---|---|---|---|---|---|---|
| model/util/calculate.go:35-52 | Both reward calculations store their quotient into `validatorFee.Float`. A `types.Percentage` shares its `*big.Float` with the caller's copy (`*r.Weight.Float` at `indexing/reward_calculation.go:78` shows the field is a pointer). So each call in the loop at `indexing/reward_calculation.go:85-97`, and the validator call at :107, sees a fee rescaled by the calls before it. `Run(Shared, …)` models the run this way, and `RewardCalculationProperties.CompletedRunAsWritten` ties its imports to the as-written split. | Stakes 600 and 400, block reward 100, fee 10: the delegators get 54 and 39.64 and the validator gets 0.991, a total of 94.631. | Every reward is taken at the epoch's fee: 54, 36 and 10, a total of 100. `Run(ByValue, …)` is that run, and `RewardCalculationProperties.CompletedRunIsExact` proves it pays out the block reward exactly. | medium (the `types` package is not part of this model), not executed | FeeAliasing.AliasedSplitLosesReward | Calculate.SplitIsExact |

=== FILE: calculate.dfy ===
/**
 * The reward arithmetic of model/util/calculate.go: a stake's weight, the
 * validator's cut and a delegator's cut of a block reward.
 *
 * Arbitrary-precision floats become exact rationals (`real`), so every
 * identity below holds exactly for the model. The validator fee is passed
 * BY VALUE here; the source writes its quotient back into the fee it was
 * given, which module FeeAliasing models separately.
 */
module Calculate {
  import opened Wrappers

  /**
   * A types.Amount: an arbitrary-precision integer that is `None` when its
   * big.Int is nil. Assuming types.Amount renders through big.Int's own
   * String, a nil amount becomes "<nil>", which no decimal parser accepts, so
   * `None` is exactly the amount that does not parse.
   */
  type Amount = Option<int>

  /** The error exits of the three calculations, one per message. */
  datatype CalcError =
    | BalanceAmountError      // "error with balance amount"
    | ZeroTotalStaked         // "total staked amount can not be zero"
    | TotalStakedAmountError  // "error with total staked amount"
    | BlockRewardAmountError  // "error with block reward amount"
    | StakeAmountError        // "error with stake amount"

  /**
   * A stake's share of the total staked amount. The balance is parsed before
   * the total is looked at, so an unparsable balance is reported as such even
   * when the total is zero.
   */
  function CalculateWeight(balance: Amount, totalStaked: Amount): (r: Result<real, CalcError>)
    ensures balance.None? ==> r == Failure(BalanceAmountError)
    ensures balance.Some? && totalStaked == Some(0) ==> r == Failure(ZeroTotalStaked)
    ensures balance.Some? && totalStaked.None? ==> r == Failure(TotalStakedAmountError)
    ensures r.Success? <==> balance.Some? && totalStaked.Some? && totalStaked.value != 0
    ensures r.Success? ==> r.value * (totalStaked.value as real) == balance.value as real
  {
    if balance.None? then Failure(BalanceAmountError)
    else if totalStaked == Some(0) then Failure(ZeroTotalStaked)
    else if totalStaked.None? then Failure(TotalStakedAmountError)
    else Success((balance.value as real) / (totalStaked.value as real))
  }

  /** The validator's cut: the fee, a percentage in 0..100, of the block reward. */
  function CalculateValidatorReward(blockReward: Amount, fee: real): (r: Result<real, CalcError>)
    ensures r.Failure? <==> blockReward.None?
    ensures r.Failure? ==> r.error == BlockRewardAmountError
    ensures r.Success? ==> 100.0 * r.value == (blockReward.value as real) * fee
  {
    if blockReward.None? then Failure(BlockRewardAmountError)
    else Success((blockReward.value as real) * (fee / 100.0))
  }

  /** A delegator's cut: its weight of what the validator's fee leaves over. */
  function CalculateDelegatorReward(weight: real, blockReward: Amount, fee: real): (r: Result<real, CalcError>)
    ensures r.Failure? <==> blockReward.None?
    ensures r.Failure? ==> r.error == StakeAmountError
    ensures r.Success? ==> 100.0 * r.value == (blockReward.value as real) * (100.0 - fee) * weight
  {
    if blockReward.None? then Failure(StakeAmountError)
    else
      var remaining := (100.0 - fee) / 100.0;
      Success((blockReward.value as real) * remaining * weight)
  }

  /** Sum of a sequence of rationals. */
  function Sum(xs: seq<real>): real
  {
    if |xs| == 0 then 0.0 else xs[0] + Sum(xs[1..])
  }

  /** Sum of a sequence of integers. */
  function Total(xs: seq<int>): int
  {
    if |xs| == 0 then 0 else xs[0] + Total(xs[1..])
  }

  /** The weight of every stake against one total, in order. */
  function Weights(stakes: seq<int>, total: int): (ws: seq<real>)
    requires total != 0
    ensures |ws| == |stakes|
    ensures forall i :: 0 <= i < |stakes| ==> ws[i] == CalculateWeight(Some(stakes[i]), Some(total)).value
  {
    if |stakes| == 0 then []
    else [CalculateWeight(Some(stakes[0]), Some(total)).value] + Weights(stakes[1..], total)
  }

  /** The delegator reward of every weight, for one block reward and one fee. */
  function DelegatorRewards(weights: seq<real>, blockReward: int, fee: real): (rs: seq<real>)
    ensures |rs| == |weights|
    ensures forall i :: 0 <= i < |weights| ==>
              rs[i] == CalculateDelegatorReward(weights[i], Some(blockReward), fee).value
  {
    if |weights| == 0 then []
    else [CalculateDelegatorReward(weights[0], Some(blockReward), fee).value]
         + DelegatorRewards(weights[1..], blockReward, fee)
  }

  /** A weight lies in [0, 1] when the balance is a non-negative part of a positive total. */
  lemma WeightInUnitInterval(balance: int, total: int)
    requires 0 <= balance <= total && 0 < total
    ensures CalculateWeight(Some(balance), Some(total)).Success?
    ensures 0.0 <= CalculateWeight(Some(balance), Some(total)).value <= 1.0
  {
    var w := CalculateWeight(Some(balance), Some(total)).value;
    var t := total as real;
    assert w * t == balance as real;
  }

  /** Dividing every stake by the same total divides their sum by it. */
  lemma {:induction false} WeightsScaleTotal(stakes: seq<int>, total: int)
    requires total != 0
    ensures Sum(Weights(stakes, total)) * (total as real) == Total(stakes) as real
  {
    if |stakes| > 0 {
      WeightsScaleTotal(stakes[1..], total);
      var ws := Weights(stakes, total);
      assert ws[1..] == Weights(stakes[1..], total);
      assert Sum(ws) == ws[0] + Sum(ws[1..]);
      var t := total as real;
      assert ws[0] * t == stakes[0] as real;
      assert Sum(ws) * t == ws[0] * t + Sum(ws[1..]) * t;
    }
  }

  /** Proportional weights against the ledger's own total add up to exactly 1. */
  lemma WeightsSumToOne(stakes: seq<int>)
    requires Total(stakes) != 0
    ensures Sum(Weights(stakes, Total(stakes))) == 1.0
  {
    WeightsScaleTotal(stakes, Total(stakes));
    UnitFactor(Sum(Weights(stakes, Total(stakes))), Total(stakes) as real, Total(stakes) as real);
  }

  /** A factor that takes a non-zero number to itself is 1. */
  lemma UnitFactor(s: real, t: real, u: real)
    requires t != 0.0 && s * t == u && u == t
    ensures s == 1.0
  {
    assert (s - 1.0) * t == s * t - t;
  }

  /** A zero fee leaves the validator nothing. */
  lemma ZeroFeeValidatorReward(blockReward: int)
    ensures CalculateValidatorReward(Some(blockReward), 0.0).Success?
    ensures CalculateValidatorReward(Some(blockReward), 0.0).value == 0.0
  {
  }

  /** A fee of 100 leaves every delegator nothing, whatever its weight. */
  lemma FullFeeDelegatorReward(weight: real, blockReward: int)
    ensures CalculateDelegatorReward(weight, Some(blockReward), 100.0).Success?
    ensures CalculateDelegatorReward(weight, Some(blockReward), 100.0).value == 0.0
  {
  }

  /** For one fee, the validator's cut and a full-weight delegator's cut make up the block reward. */
  lemma Complementarity(blockReward: int, fee: real)
    ensures CalculateValidatorReward(Some(blockReward), fee).value
            + CalculateDelegatorReward(1.0, Some(blockReward), fee).value == blockReward as real
  {
  }

  /** A delegator's reward is additive in its weight. */
  lemma DelegatorRewardAdditive(w1: real, w2: real, blockReward: int, fee: real)
    ensures CalculateDelegatorReward(w1 + w2, Some(blockReward), fee).value
            == CalculateDelegatorReward(w1, Some(blockReward), fee).value
             + CalculateDelegatorReward(w2, Some(blockReward), fee).value
  {
    var k := (blockReward as real) * ((100.0 - fee) / 100.0);
    assert k * (w1 + w2) == k * w1 + k * w2;
  }

  /** A delegator's reward scales with its weight. */
  lemma DelegatorRewardHomogeneous(c: real, w: real, blockReward: int, fee: real)
    ensures CalculateDelegatorReward(c * w, Some(blockReward), fee).value
            == c * CalculateDelegatorReward(w, Some(blockReward), fee).value
  {
    var k := (blockReward as real) * ((100.0 - fee) / 100.0);
    assert k * (c * w) == c * (k * w);
  }

  /** For a non-negative reward and a fee of at most 100, more weight never earns less. */
  lemma DelegatorRewardMonotone(w1: real, w2: real, blockReward: int, fee: real)
    requires 0 <= blockReward && fee <= 100.0 && w1 <= w2
    ensures CalculateDelegatorReward(w1, Some(blockReward), fee).value
            <= CalculateDelegatorReward(w2, Some(blockReward), fee).value
  {
    var k := (blockReward as real) * ((100.0 - fee) / 100.0);
    assert 0.0 <= k;
    assert k * (w2 - w1) >= 0.0;
    assert k * w2 - k * w1 == k * (w2 - w1);
  }

  /** The delegators' rewards together are their weights' sum of the fee's remainder. */
  lemma {:induction false} DelegatorRewardsTotal(weights: seq<real>, blockReward: int, fee: real)
    ensures Sum(DelegatorRewards(weights, blockReward, fee))
            == CalculateDelegatorReward(Sum(weights), Some(blockReward), fee).value
  {
    if |weights| == 0 {
      assert CalculateDelegatorReward(0.0, Some(blockReward), fee).value == 0.0;
    } else {
      DelegatorRewardsTotal(weights[1..], blockReward, fee);
      var rs := DelegatorRewards(weights, blockReward, fee);
      assert rs[1..] == DelegatorRewards(weights[1..], blockReward, fee);
      DelegatorRewardAdditive(weights[0], Sum(weights[1..]), blockReward, fee);
    }
  }

  /**
   * Exactness of the split: when the weights add up to 1, the validator's cut
   * and every delegator's cut, all taken at the same fee, add up to the block
   * reward.
   */
  lemma SplitIsExact(weights: seq<real>, blockReward: int, fee: real)
    requires Sum(weights) == 1.0
    ensures CalculateValidatorReward(Some(blockReward), fee).value
            + Sum(DelegatorRewards(weights, blockReward, fee)) == blockReward as real
  {
    DelegatorRewardsTotal(weights, blockReward, fee);
    Complementarity(blockReward, fee);
  }

  /**
   * The worked example: stakes 600 and 400 of 1000, a block reward of 100 and
   * a fee of 10 give weights 0.6 and 0.4, a validator reward of 10 and
   * delegator rewards of 54 and 36, which add up to 100.
   */
  lemma WorkedExample()
    ensures var ws := Weights([600, 400], 1000); ws[0] == 0.6 && ws[1] == 0.4
    ensures CalculateValidatorReward(Some(100), 10.0).value == 10.0
    ensures var ds := DelegatorRewards([0.6, 0.4], 100, 10.0); ds[0] == 54.0 && ds[1] == 36.0
    ensures 10.0 + Sum([54.0, 36.0]) == 100.0
  {
    var ds := DelegatorRewards([0.6, 0.4], 100, 10.0);
    assert ds[1..] == DelegatorRewards([0.4], 100, 10.0);
  }

  /** Every total-staked amount of zero makes every balance's weight fail. */
  lemma ZeroTotalFailsEveryBalance(balances: seq<Amount>)
    ensures forall i :: 0 <= i < |balances| ==> CalculateWeight(balances[i], Some(0)).Failure?
  {
  }
}

=== FILE: fee_aliasing.dfy ===
/**
 * The validator fee as model/util/calculate.go actually treats it. A
 * types.Percentage holds a pointer to its big.Float, so the copy each
 * calculation receives shares its number with the caller's fee. Both reward
 * calculations store their quotient into that shared number: after a
 * delegator reward the caller's fee f has become (100 - f) / 100, after a
 * validator reward f / 100. The run in indexing/reward_calculation.go passes
 * the same fee to every delegator and then to the validator, so every call
 * after the first sees a rescaled fee.
 *
 * `fee` below is the value in that shared cell; each function returns the
 * reward together with the value it leaves behind.
 */
module FeeAliasing {
  import opened Wrappers
  import Calculate

  /** CalculateValidatorReward as written: the reward, and the fee cell afterwards. */
  function ValidatorRewardInPlace(blockReward: Calculate.Amount, fee: real): (r: (Result<real, Calculate.CalcError>, real))
    ensures r.0.Failure? <==> blockReward.None?
    ensures r.0.Failure? ==> r.0.error == Calculate.BlockRewardAmountError
    ensures r.0.Success? ==> 100.0 * r.0.value == (blockReward.value as real) * fee
    ensures blockReward.None? ==> r.1 == fee
    ensures blockReward.Some? ==> 100.0 * r.1 == fee
  {
    if blockReward.None? then (Failure(Calculate.BlockRewardAmountError), fee)
    else
      var cell := fee / 100.0;
      (Success((blockReward.value as real) * cell), cell)
  }

  /** CalculateDelegatorReward as written: the reward, and the fee cell afterwards. */
  function DelegatorRewardInPlace(weight: real, blockReward: Calculate.Amount, fee: real)
    : (r: (Result<real, Calculate.CalcError>, real))
    ensures r.0.Failure? <==> blockReward.None?
    ensures r.0.Failure? ==> r.0.error == Calculate.StakeAmountError
    ensures r.0.Success? ==> 100.0 * r.0.value == (blockReward.value as real) * (100.0 - fee) * weight
    ensures blockReward.None? ==> r.1 == fee
    ensures blockReward.Some? ==> 100.0 * r.1 == 100.0 - fee
  {
    if blockReward.None? then (Failure(Calculate.StakeAmountError), fee)
    else
      var remaining := 100.0 - fee;
      var cell := remaining / 100.0;
      (Success((blockReward.value as real) * cell * weight), cell)
  }

  /** The fee cell after `n` delegator rewards have each rescaled it. */
  function FeeAfter(n: nat, fee: real): real
  {
    if n == 0 then fee else (100.0 - FeeAfter(n - 1, fee)) / 100.0
  }

  /** Rescaling `n` times after a first rescaling is rescaling `n + 1` times. */
  lemma {:induction false} FeeAfterShift(n: nat, fee: real)
    ensures FeeAfter(n, FeeAfter(1, fee)) == FeeAfter(n + 1, fee)
  {
    if n > 0 {
      FeeAfterShift(n - 1, fee);
    }
  }

  /**
   * The delegator loop of the run as written: every reward is computed at
   * the fee the previous reward left in the shared cell.
   */
  function DelegatorLoopInPlace(weights: seq<real>, blockReward: int, fee: real): (r: (seq<real>, real))
    ensures |r.0| == |weights|
    ensures forall i :: 0 <= i < |weights| ==>
              r.0[i] == Calculate.CalculateDelegatorReward(weights[i], Some(blockReward), FeeAfter(i, fee)).value
    ensures r.1 == FeeAfter(|weights|, fee)
    decreases |weights|
  {
    if |weights| == 0 then ([], fee)
    else
      var init := weights[..|weights| - 1];
      var (rewards, cell) := DelegatorLoopInPlace(init, blockReward, fee);
      var (last, cell') := DelegatorRewardInPlace(weights[|weights| - 1], Some(blockReward), cell);
      assert forall i :: 0 <= i < |init| ==> init[i] == weights[i];
      var expected := Calculate.CalculateDelegatorReward(weights[|weights| - 1], Some(blockReward), cell).value;
      assert 100.0 * last.value == 100.0 * expected;
      (rewards + [last.value], cell')
  }

  /** The whole split as written: the delegator rewards, then the validator reward. */
  function SplitInPlace(weights: seq<real>, blockReward: int, fee: real): (r: (seq<real>, real))
    ensures r.0 == DelegatorLoopInPlace(weights, blockReward, fee).0
    ensures 100.0 * r.1 == (blockReward as real) * FeeAfter(|weights|, fee)
  {
    var (rewards, cell) := DelegatorLoopInPlace(weights, blockReward, fee);
    (rewards, ValidatorRewardInPlace(Some(blockReward), cell).0.value)
  }

  /**
   * The worked example run as written: stakes 600 and 400, a block reward of
   * 100 and a fee of 10. The second delegator is paid at fee 0.9 and the
   * validator at fee 0.991, so 94.631 of the 100 is paid out.
   */
  lemma AliasedSplitLosesReward()
    ensures Calculate.Sum([0.6, 0.4]) == 1.0
    ensures var r := SplitInPlace([0.6, 0.4], 100, 10.0);
            r.0[0] == 54.0 && r.0[1] == 39.64 && r.1 == 0.991
            && Calculate.Sum(r.0) + r.1 == 94.631
  {
    var r := SplitInPlace([0.6, 0.4], 100, 10.0);
    assert FeeAfter(1, 10.0) == 0.9;
    assert FeeAfter(2, 10.0) == 0.991;
    assert Calculate.Sum(r.0) == r.0[0] + Calculate.Sum(r.0[1..]);
    assert Calculate.Sum(r.0[1..]) == r.0[1] + Calculate.Sum(r.0[2..]);
  }

  /**
   * With one delegator of full weight the as-written split pays 1.01 times the
   * delegators' share, which is the block reward only for a zero reward or
   * for the one fee 100 - 10000/101.
   */
  lemma SingleDelegatorInPlace(blockReward: int, fee: real)
    ensures var r := SplitInPlace([1.0], blockReward, fee);
            10000.0 * (Calculate.Sum(r.0) + r.1) == 101.0 * (blockReward as real) * (100.0 - fee)
  {
    var r := SplitInPlace([1.0], blockReward, fee);
    assert Calculate.Sum(r.0) == r.0[0];
    assert FeeAfter(1, fee) == (100.0 - fee) / 100.0;
  }
}

=== FILE: reward_calculation.dfy ===
/**
 * One block's reward-distribution run (indexing/reward_calculation.go,
 * RewardCalculation) as a total function. The store is a set of lookup
 * outcomes, the helpers whose code is not part of this model are parameters,
 * and the run returns its outcome together with the store calls it made, in
 * order, so that every early exit can be checked to have written nothing.
 */
module RewardCalculation {
  import opened Wrappers
  import Calculate
  import FeeAliasing

  type PublicKey = string
  /** An error raised by the store or by a helper, passed on unchanged. */
  type ExternalError = string
  type Amount = Calculate.Amount

  /** The fields of a block the run reads. */
  datatype Block = Block(
    coinbase: Amount,
    transactionsFees: Amount,
    snarkJobsFees: Amount,
    epoch: int,
    slot: int,
    supercharged: bool,
    creator: PublicKey)

  /** A validator's fee, a percentage in 0..100, for one epoch. */
  datatype ValidatorEpoch = ValidatorEpoch(accountAddress: PublicKey, epoch: int, validatorFee: real)

  datatype Ledger = Ledger(id: int, epoch: int, stakedAmount: Amount)

  /** A staking-ledger entry; `weight` is filled in by a weighting policy. */
  datatype StakingRecord = StakingRecord(publicKey: PublicKey, stakedAmount: Amount, weight: real)

  datatype OwnerType = Validator | Delegator

  datatype BlockReward = BlockReward(ownerAccount: PublicKey, ownerType: OwnerType, reward: real)

  /** What a store lookup comes back with. */
  datatype Lookup<T> = Found(value: T) | NotFound | StoreError(error: ExternalError)

  /**
   * The store as seen by one run. `firstBlockOfEpoch` finds the slot of the
   * epoch's first block, `Found(None)` being a nil block with no error;
   * `importRewards` answers an import with the error it fails with, if any.
   */
  datatype Store = Store(
    validatorEpochs: (int, PublicKey) -> Lookup<seq<ValidatorEpoch>>,
    findLedger: int -> Lookup<Ledger>,
    ledgerRecords: int -> Lookup<seq<StakingRecord>>,
    firstBlockOfEpoch: int -> Lookup<Option<int>>,
    importRewards: seq<BlockReward> -> Option<ExternalError>)

  /**
   * The helpers the run calls whose formulas are not part of this model:
   * the two weighting policies, the supercharged weighting factor, and the
   * mappers that draft the reward records of a block.
   */
  datatype Collaborators = Collaborators(
    weightsNonSupercharged: (Amount, seq<StakingRecord>) -> Result<seq<StakingRecord>, ExternalError>,
    superchargedWeighting: Block -> Result<real, ExternalError>,
    weightsSupercharged: (real, seq<StakingRecord>, int) -> Result<seq<StakingRecord>, ExternalError>,
    delegatorBlockRewards: (seq<StakingRecord>, Block) -> Result<seq<BlockReward>, ExternalError>,
    validatorBlockReward: Block -> Result<BlockReward, ExternalError>)

  /** A call the run makes on the store. */
  datatype Call =
    | GetValidatorEpochs(epoch: int, creator: PublicKey)
    | FindLedger(epoch: int)
    | LedgerRecords(ledgerId: int)
    | FirstBlockOfEpoch(epoch: int)
    | Import(rewards: seq<BlockReward>)

  datatype Error =
    | External(message: ExternalError)         // a store or helper error, unchanged
    | ValidatorFeeNotFound                     // "validator fee for epoch not found"
    | FirstBlockNotFound                       // "first block of epoch is not found"
    | RecordNotFound(owner: PublicKey)         // "record is not found for <owner>"
    | Arithmetic(cause: Calculate.CalcError)

  /**
   * How a run ends. `Done` is the source's nil error, both for a completed run
   * and for a deferred one. `Unspecified` is the path where the first block
   * of the epoch is NotFound and the source goes on to read the slot of the
   * block it did not find; what that does depends on the store.
   */
  datatype Outcome = Done | Aborted(error: Error) | Unspecified

  /** Everything the run has gathered once the lookups and weighting succeed. */
  datatype Plan = Plan(
    fee: real,
    blockReward: Amount,
    weights: map<PublicKey, real>,
    drafts: seq<BlockReward>)

  /** Where the lookups and weighting leave the run. */
  datatype Stage = Exit(outcome: Outcome) | Ready(plan: Plan)

  /** The rewards of every import in a trace of calls, in order. */
  function Imports(calls: seq<Call>): seq<seq<BlockReward>>
  {
    if |calls| == 0 then []
    else (if calls[0].Import? then [calls[0].rewards] else []) + Imports(calls[1..])
  }

  predicate NoImports(calls: seq<Call>)
  {
    forall i :: 0 <= i < |calls| ==> !calls[i].Import?
  }

  /** All three block-reward components are present (none is a nil amount). */
  predicate RewardInputsPresent(b: Block)
  {
    b.coinbase.Some? && b.transactionsFees.Some? && b.snarkJobsFees.Some?
  }

  /** Coinbase plus transaction fees minus SNARK-job fees. */
  function BlockRewardOf(b: Block): (r: Amount)
    requires RewardInputsPresent(b)
    ensures r.Some? && r.value + b.snarkJobsFees.value == b.coinbase.value + b.transactionsFees.value
  {
    Some(b.coinbase.value + b.transactionsFees.value - b.snarkJobsFees.value)
  }

  /** Every drafted reward's owner has a weight. */
  predicate AllWeighted(drafts: seq<BlockReward>, weights: map<PublicKey, real>)
  {
    forall i :: 0 <= i < |drafts| ==> drafts[i].ownerAccount in weights
  }

  /** Sum of the rewards of a list of reward records. */
  function TotalReward(rs: seq<BlockReward>): real
  {
    if |rs| == 0 then 0.0 else rs[0].reward + TotalReward(rs[1..])
  }

  /** The weights of the drafted rewards' owners, in order. */
  function OwnerWeights(drafts: seq<BlockReward>, weights: map<PublicKey, real>): (ws: seq<real>)
    requires AllWeighted(drafts, weights)
    ensures |ws| == |drafts|
    ensures forall i :: 0 <= i < |drafts| ==> ws[i] == weights[drafts[i].ownerAccount]
  {
    if |drafts| == 0 then []
    else [weights[drafts[0].ownerAccount]] + OwnerWeights(drafts[1..], weights)
  }

  /**
   * The map from public key to weight built from the weighted records, one
   * record after another, so that a later record overwrites an earlier one
   * with the same key.
   */
  function WeightMap(records: seq<StakingRecord>): (m: map<PublicKey, real>)
    ensures |records| == 0 ==> m == map[]
    ensures |records| > 0 ==> var last := records[|records| - 1];
              last.publicKey in m && m[last.publicKey] == last.weight
  {
    if |records| == 0 then map[]
    else
      var last := records[|records| - 1];
      WeightMap(records[..|records| - 1])[last.publicKey := last.weight]
  }

  /** A key has a weight exactly when some record carries it. */
  lemma {:induction false} WeightMapKeys(records: seq<StakingRecord>, key: PublicKey)
    ensures key in WeightMap(records) <==> exists i :: 0 <= i < |records| && records[i].publicKey == key
  {
    if |records| > 0 {
      var init := records[..|records| - 1];
      WeightMapKeys(init, key);
      if key in WeightMap(init) {
        var i :| 0 <= i < |init| && init[i].publicKey == key;
        assert records[i] == init[i];
      }
      if exists i :: 0 <= i < |records| && records[i].publicKey == key {
        var i :| 0 <= i < |records| && records[i].publicKey == key;
        if i < |init| {
          assert init[i] == records[i];
        }
      }
    }
  }

  /** A key's weight is that of the last record carrying it. */
  lemma {:induction false} WeightMapLastWins(records: seq<StakingRecord>, i: int)
    requires 0 <= i < |records| && LastWithKey(records, i)
    ensures records[i].publicKey in WeightMap(records)
    ensures WeightMap(records)[records[i].publicKey] == records[i].weight
  {
    var init := records[..|records| - 1];
    if i < |records| - 1 {
      assert records[|records| - 1].publicKey != records[i].publicKey;
      assert init[i] == records[i];
      assert LastWithKey(init, i) by {
        forall j | i < j < |init|
          ensures init[j].publicKey != init[i].publicKey
        {
          assert init[j] == records[j];
        }
      }
      WeightMapLastWins(init, i);
    }
  }

  /** No record after the `i`-th has the same key. */
  predicate LastWithKey(records: seq<StakingRecord>, i: int)
    requires 0 <= i < |records|
  {
    forall j :: i < j < |records| ==> records[j].publicKey != records[i].publicKey
  }

  /**
   * The weighting pass: `supercharged` selects exactly one of the two
   * policies; the supercharged one first derives its factor from the block.
   */
  function Weigh(env: Collaborators, block: Block, ledger: Ledger, records: seq<StakingRecord>, firstSlot: int)
    : (r: Result<seq<StakingRecord>, ExternalError>)
    ensures !block.supercharged ==> r == env.weightsNonSupercharged(ledger.stakedAmount, records)
    ensures block.supercharged && env.superchargedWeighting(block).Failure? ==>
              r == Failure(env.superchargedWeighting(block).error)
    ensures block.supercharged && env.superchargedWeighting(block).Success? ==>
              r == env.weightsSupercharged(env.superchargedWeighting(block).value, records, firstSlot)
  {
    if !block.supercharged then env.weightsNonSupercharged(ledger.stakedAmount, records)
    else
      match env.superchargedWeighting(block)
      case Failure(e) => Failure(e)
      case Success(factor) => env.weightsSupercharged(factor, records, firstSlot)
  }

  /**
   * How the run hands the epoch's fee to the reward calculations. `Shared` is
   * the source as written: every call receives the same number, and each call
   * rescales it in place (module FeeAliasing). `ByValue` gives every call the
   * epoch's fee itself, which is what the split evidently intends.
   */
  datatype FeePassing = Shared | ByValue

  /** The fee the reward calculation after `n` delegator rewards sees. */
  function FeeSeen(passing: FeePassing, n: nat, fee: real): real
  {
    match passing
    case Shared => FeeAliasing.FeeAfter(n, fee)
    case ByValue => fee
  }

  /** The fee seen after one more delegator reward, for every count. */
  lemma FeeSeenShift(passing: FeePassing, fee: real)
    ensures forall n: nat :: FeeSeen(passing, n, FeeSeen(passing, 1, fee)) == FeeSeen(passing, n + 1, fee)
  {
    forall n: nat
      ensures FeeSeen(passing, n, FeeSeen(passing, 1, fee)) == FeeSeen(passing, n + 1, fee)
    {
      FeeAliasing.FeeAfterShift(n, fee);
    }
  }

  /** The filled-in delegator rewards, and the fee the loop leaves behind. */
  datatype Filled = Filled(rewards: seq<BlockReward>, feeLeft: real)

  /**
   * The delegator loop: each drafted reward gets its owner's weight of the
   * delegators' share, at the fee the calculations before it left. The first
   * owner without a weight stops the loop.
   */
  function FillDelegatorRewards(passing: FeePassing, drafts: seq<BlockReward>, weights: map<PublicKey, real>,
                                blockReward: Amount, fee: real)
    : (r: Result<Filled, Error>)
    ensures r.Success? <==> AllWeighted(drafts, weights) && (blockReward.Some? || |drafts| == 0)
    ensures r.Success? ==> |r.value.rewards| == |drafts| && r.value.feeLeft == FeeSeen(passing, |drafts|, fee)
    ensures r.Success? ==> forall i :: 0 <= i < |drafts| ==>
              && r.value.rewards[i] == drafts[i].(reward := r.value.rewards[i].reward)
              && r.value.rewards[i].reward
                 == Calculate.CalculateDelegatorReward(weights[drafts[i].ownerAccount], blockReward,
                                                       FeeSeen(passing, i, fee)).value
    ensures r.Failure? && blockReward.Some? ==>
              exists i :: 0 <= i < |drafts| && r.error == RecordNotFound(drafts[i].ownerAccount)
                          && drafts[i].ownerAccount !in weights && AllWeighted(drafts[..i], weights)
    ensures r.Failure? && blockReward.None? && |drafts| > 0 && drafts[0].ownerAccount in weights ==>
              r.error == Arithmetic(Calculate.StakeAmountError)
    decreases |drafts|
  {
    if |drafts| == 0 then Success(Filled([], fee))
    else
      var owner := drafts[0].ownerAccount;
      if owner !in weights then Failure(RecordNotFound(owner))
      else
        var (result, feeLeft) := match passing
          case Shared => FeeAliasing.DelegatorRewardInPlace(weights[owner], blockReward, fee)
          case ByValue => (Calculate.CalculateDelegatorReward(weights[owner], blockReward, fee), fee);
        match result
        case Failure(e) => Failure(Arithmetic(e))
        case Success(amount) =>
          assert feeLeft == FeeSeen(passing, 1, fee) by {
            assert FeeAliasing.FeeAfter(0, fee) == fee;
          }
          assert 100.0 * amount
                 == 100.0 * Calculate.CalculateDelegatorReward(weights[owner], blockReward, fee).value;
          FeeSeenShift(passing, fee);
          match FillDelegatorRewards(passing, drafts[1..], weights, blockReward, feeLeft)
          case Failure(e) =>
            assert forall i :: 0 <= i < |drafts| - 1 ==> drafts[1..][i] == drafts[i + 1];
            assert forall i :: 0 <= i < |drafts| - 1 ==> drafts[1..][..i] == drafts[1..i + 1];
            Failure(e)
          case Success(rest) =>
            assert forall i :: 0 <= i < |drafts| - 1 ==> drafts[1..][i] == drafts[i + 1];
            Success(Filled([drafts[0].(reward := amount)] + rest.rewards, rest.feeLeft))
  }

  /**
   * The lookups and the weighting pass, for a block whose reward inputs are
   * all present. Ends either in an early exit or with everything the reward
   * split needs; it never imports.
   */
  function Prepare(store: Store, env: Collaborators, block: Block): (r: (Stage, seq<Call>))
    requires RewardInputsPresent(block)
    ensures NoImports(r.1)
    ensures |r.1| >= 1 && r.1[0] == GetValidatorEpochs(block.epoch, block.creator)
    ensures r.0.Ready? ==> r.0.plan.blockReward == BlockRewardOf(block)
    ensures r.0.Ready? ==> var epochs := store.validatorEpochs(block.epoch, block.creator);
              epochs.Found? && |epochs.value| > 0 && r.0.plan.fee == epochs.value[0].validatorFee
  {
    var feeCall := GetValidatorEpochs(block.epoch, block.creator);
    match store.validatorEpochs(block.epoch, block.creator)
    case StoreError(e) => (Exit(Aborted(External(e))), [feeCall])
    case NotFound => (Exit(Aborted(ValidatorFeeNotFound)), [feeCall])
    case Found(epochs) =>
      if |epochs| == 0 then (Exit(Aborted(ValidatorFeeNotFound)), [feeCall])
      else
        var fee := epochs[0].validatorFee;
        var ledgerCall := FindLedger(block.epoch);
        match store.findLedger(block.epoch)
        case StoreError(e) => (Exit(Aborted(External(e))), [feeCall, ledgerCall])
        case NotFound => (Exit(Done), [feeCall, ledgerCall])
        case Found(ledger) =>
          var recordsCall := LedgerRecords(ledger.id);
          var records := store.ledgerRecords(ledger.id);
          if records.StoreError? then (Exit(Aborted(External(records.error))), [feeCall, ledgerCall, recordsCall])
          else
            // a NotFound ledger-records lookup carries on with no records
            var entries := if records.Found? then records.value else [];
            var calls := [feeCall, ledgerCall, recordsCall, FirstBlockOfEpoch(block.epoch)];
            match store.firstBlockOfEpoch(block.epoch)
            case StoreError(e) => (Exit(Aborted(External(e))), calls)
            case NotFound => (Exit(Unspecified), calls)
            case Found(None) => (Exit(Aborted(FirstBlockNotFound)), calls)
            case Found(Some(firstSlot)) =>
              match Weigh(env, block, ledger, entries, firstSlot)
              case Failure(e) => (Exit(Aborted(External(e))), calls)
              case Success(weighted) =>
                match env.delegatorBlockRewards(weighted, block)
                case Failure(e) => (Exit(Aborted(External(e))), calls)
                case Success(drafts) =>
                  (Ready(Plan(fee, BlockRewardOf(block), WeightMap(weighted), drafts)), calls)
  }

  /** The delegator loop over everything a plan gathered. */
  function FillPlan(passing: FeePassing, plan: Plan): Result<Filled, Error>
  {
    FillDelegatorRewards(passing, plan.drafts, plan.weights, plan.blockReward, plan.fee)
  }

  /**
   * The reward split and the two imports: the delegator rewards are filled in
   * and imported first; only then is the validator reward drafted, computed
   * at the fee the delegator loop left, and imported on its own.
   */
  function Distribute(passing: FeePassing, store: Store, env: Collaborators, block: Block, plan: Plan)
    : (r: (Outcome, seq<Call>))
    ensures FillPlan(passing, plan).Failure? ==> r == (Aborted(FillPlan(passing, plan).error), [])
    ensures FillPlan(passing, plan).Success? ==>
              1 <= |r.1| <= 2 && r.1[0] == Import(FillPlan(passing, plan).value.rewards)
    ensures forall i :: 0 <= i < |r.1| ==> r.1[i].Import?
    ensures |r.1| == 2 ==>
              && |r.1[1].rewards| == 1
              && env.validatorBlockReward(block).Success?
              && r.1[1].rewards[0] == env.validatorBlockReward(block).value.(reward := r.1[1].rewards[0].reward)
              && Calculate.CalculateValidatorReward(plan.blockReward, FeeSeen(passing, |plan.drafts|, plan.fee))
                 == Success(r.1[1].rewards[0].reward)
    ensures (&& |r.1| >= 1 && store.importRewards(r.1[0].rewards).None?
             && env.validatorBlockReward(block).Success? && plan.blockReward.Some?) ==> |r.1| == 2
    ensures |r.1| == 2 ==> store.importRewards(r.1[0].rewards).None?
    ensures r.0 == Done <==>
              |r.1| == 2 && store.importRewards(r.1[0].rewards).None? && store.importRewards(r.1[1].rewards).None?
  {
    match FillPlan(passing, plan)
    case Failure(e) => (Aborted(e), [])
    case Success(filled) =>
      var first := Import(filled.rewards);
      match store.importRewards(filled.rewards)
      case Some(e) => (Aborted(External(e)), [first])
      case None =>
        match env.validatorBlockReward(block)
        case Failure(e) => (Aborted(External(e)), [first])
        case Success(draft) =>
          var result := match passing
            case Shared => FeeAliasing.ValidatorRewardInPlace(plan.blockReward, filled.feeLeft).0
            case ByValue => Calculate.CalculateValidatorReward(plan.blockReward, filled.feeLeft);
          match result
          case Failure(e) => (Aborted(Arithmetic(e)), [first])
          case Success(amount) =>
            var validatorReward := draft.(reward := amount);
            match store.importRewards([validatorReward])
            case Some(e) => (Aborted(External(e)), [first, Import([validatorReward])])
            case None => (Done, [first, Import([validatorReward])])
  }

  /**
   * One block's reward-distribution run: the outcome and every store call
   * made, in order. `Run(Shared, …)` is the run as written; `Run(ByValue, …)`
   * is the run with the fee passed by value.
   */
  function Run(passing: FeePassing, store: Store, env: Collaborators, block: Block): (r: (Outcome, seq<Call>))
    ensures !RewardInputsPresent(block) ==> r == (Done, [])
    ensures RewardInputsPresent(block) ==> |r.1| >= 1 && r.1[0] == GetValidatorEpochs(block.epoch, block.creator)
    ensures !(r.0.Aborted? && r.0.error.Arithmetic?)
  {
    if !RewardInputsPresent(block) then (Done, [])
    else
      var (stage, lookups) := Prepare(store, env, block);
      match stage
      case Exit(outcome) => (outcome, lookups)
      case Ready(plan) =>
        var (outcome, imports) := Distribute(passing, store, env, block, plan);
        (outcome, lookups + imports)
  }
}

=== FILE: reward_calculation_properties.dfy ===
/**
 * What a reward-distribution run promises: which lookups end it early and
 * how, that nothing is imported before every delegator reward is known, the
 * order of the two imports, and that a successful run pays out exactly the
 * block reward when the delegators' weights add up to 1.
 */
module RewardCalculationProperties {
  import opened Wrappers
  import Calculate
  import opened RewardCalculation

  /** Imports of a concatenated trace are the imports of each part. */
  lemma {:induction false} ImportsAppend(a: seq<Call>, b: seq<Call>)
    ensures Imports(a + b) == Imports(a) + Imports(b)
  {
    if |a| > 0 {
      assert (a + b)[0] == a[0];
      assert (a + b)[1..] == a[1..] + b;
      ImportsAppend(a[1..], b);
      var head := if a[0].Import? then [a[0].rewards] else [];
      assert Imports(a + b) == head + (Imports(a[1..]) + Imports(b));
      assert head + (Imports(a[1..]) + Imports(b)) == (head + Imports(a[1..])) + Imports(b);
    } else {
      assert a + b == b;
    }
  }

  /** A trace with no import call has no imports. */
  lemma {:induction false} NoImportsHasNone(calls: seq<Call>)
    requires NoImports(calls)
    ensures Imports(calls) == []
  {
    if |calls| > 0 {
      NoImportsHasNone(calls[1..]);
    }
  }

  /** The imports of a trace made only of imports. */
  lemma AllImports(calls: seq<Call>)
    requires |calls| <= 2 && forall i :: 0 <= i < |calls| ==> calls[i].Import?
    ensures |Imports(calls)| == |calls|
    ensures forall i :: 0 <= i < |calls| ==> Imports(calls)[i] == calls[i].rewards
  {
    if |calls| > 0 {
      assert Imports(calls) == [calls[0].rewards] + Imports(calls[1..]);
      if |calls| > 1 {
        assert Imports(calls[1..]) == [calls[1].rewards] + Imports(calls[2..]);
      }
    }
  }

  /** The imports of a run are those of its split, after the lookups. */
  lemma RunImports(passing: FeePassing, store: Store, env: Collaborators, block: Block)
    requires RewardInputsPresent(block)
    ensures Prepare(store, env, block).0.Exit? ==> Imports(Run(passing, store, env, block).1) == []
    ensures Prepare(store, env, block).0.Ready? ==>
              var d := Distribute(passing, store, env, block, Prepare(store, env, block).0.plan);
              && Run(passing, store, env, block) == (d.0, Prepare(store, env, block).1 + d.1)
              && Imports(Run(passing, store, env, block).1) == Imports(d.1)
  {
    var (stage, lookups) := Prepare(store, env, block);
    NoImportsHasNone(lookups);
    if stage.Ready? {
      var d := Distribute(passing, store, env, block, stage.plan);
      ImportsAppend(lookups, d.1);
    }
  }

  /** A failed validator-fee lookup is passed on, before anything else is looked up. */
  lemma FeeLookupErrorPropagates(passing: FeePassing, store: Store, env: Collaborators, block: Block, e: ExternalError)
    requires RewardInputsPresent(block)
    requires store.validatorEpochs(block.epoch, block.creator) == StoreError(e)
    ensures Run(passing, store, env, block) == (Aborted(External(e)), [GetValidatorEpochs(block.epoch, block.creator)])
  {
  }

  /** No fee for the epoch, whether NotFound or an empty list, is a hard error, not a deferral. */
  lemma MissingFeeIsHardError(passing: FeePassing, store: Store, env: Collaborators, block: Block)
    requires RewardInputsPresent(block)
    requires store.validatorEpochs(block.epoch, block.creator) in {NotFound, Found([])}
    ensures Run(passing, store, env, block) == (Aborted(ValidatorFeeNotFound), [GetValidatorEpochs(block.epoch, block.creator)])
  {
  }

  /** The lookups a run reaches once the fee is known. */
  predicate FeeFound(store: Store, block: Block)
  {
    var epochs := store.validatorEpochs(block.epoch, block.creator);
    epochs.Found? && |epochs.value| > 0
  }

  /** No staking ledger for the epoch defers the run: success, nothing imported. */
  lemma MissingLedgerDefers(passing: FeePassing, store: Store, env: Collaborators, block: Block)
    requires RewardInputsPresent(block) && FeeFound(store, block)
    requires store.findLedger(block.epoch) == NotFound
    ensures Run(passing, store, env, block)
            == (Done, [GetValidatorEpochs(block.epoch, block.creator), FindLedger(block.epoch)])
  {
  }

  /** A failed ledger lookup other than NotFound is passed on, nothing imported. */
  lemma LedgerErrorPropagates(passing: FeePassing, store: Store, env: Collaborators, block: Block, e: ExternalError)
    requires RewardInputsPresent(block) && FeeFound(store, block)
    requires store.findLedger(block.epoch) == StoreError(e)
    ensures Run(passing, store, env, block)
            == (Aborted(External(e)), [GetValidatorEpochs(block.epoch, block.creator), FindLedger(block.epoch)])
  {
  }

  /** The run reaches the first-block lookup. */
  predicate ReachesFirstBlock(store: Store, block: Block)
  {
    && FeeFound(store, block)
    && store.findLedger(block.epoch).Found?
    && !store.ledgerRecords(store.findLedger(block.epoch).value.id).StoreError?
  }

  /**
   * The first-block lookup: a nil block is an error, a failed lookup is
   * passed on, and NotFound leaves the run's behaviour unspecified; in every
   * case nothing is weighted or imported.
   */
  lemma FirstBlockLookupExits(passing: FeePassing, store: Store, env: Collaborators, block: Block)
    requires RewardInputsPresent(block) && ReachesFirstBlock(store, block)
    requires !store.firstBlockOfEpoch(block.epoch).Found? || store.firstBlockOfEpoch(block.epoch).value.None?
    ensures Imports(Run(passing, store, env, block).1) == []
    ensures store.firstBlockOfEpoch(block.epoch) == Found(None) ==>
              Run(passing, store, env, block).0 == Aborted(FirstBlockNotFound)
    ensures store.firstBlockOfEpoch(block.epoch).StoreError? ==>
              Run(passing, store, env, block).0 == Aborted(External(store.firstBlockOfEpoch(block.epoch).error))
    ensures store.firstBlockOfEpoch(block.epoch) == NotFound ==> Run(passing, store, env, block).0 == Unspecified
  {
    RunImports(passing, store, env, block);
  }

  /** A failed ledger-records lookup other than NotFound is passed on, nothing imported. */
  lemma RecordsLookupErrorPropagates(passing: FeePassing, store: Store, env: Collaborators, block: Block,
                                     e: ExternalError)
    requires RewardInputsPresent(block) && FeeFound(store, block) && store.findLedger(block.epoch).Found?
    requires store.ledgerRecords(store.findLedger(block.epoch).value.id) == StoreError(e)
    ensures Run(passing, store, env, block)
            == (Aborted(External(e)), [GetValidatorEpochs(block.epoch, block.creator), FindLedger(block.epoch),
                                       LedgerRecords(store.findLedger(block.epoch).value.id)])
  {
  }

  /**
   * A NotFound ledger-records lookup carries on exactly as if the ledger had
   * no records.
   */
  lemma RecordsNotFoundCarriesOn(passing: FeePassing, store: Store, env: Collaborators, block: Block)
    requires RewardInputsPresent(block) && FeeFound(store, block) && store.findLedger(block.epoch).Found?
    requires store.ledgerRecords(store.findLedger(block.epoch).value.id) == NotFound
    ensures var id := store.findLedger(block.epoch).value.id;
            var empty := store.(ledgerRecords := (i: int) => if i == id then Found([]) else store.ledgerRecords(i));
            Run(passing, store, env, block) == Run(passing, empty, env, block)
  {
    var id := store.findLedger(block.epoch).value.id;
    var empty := store.(ledgerRecords := (i: int) => if i == id then Found([]) else store.ledgerRecords(i));
    assert Prepare(store, env, block) == Prepare(empty, env, block);
  }

  /** The records the weighting pass receives. */
  function LedgerEntries(store: Store, block: Block): seq<StakingRecord>
    requires ReachesFirstBlock(store, block)
  {
    var records := store.ledgerRecords(store.findLedger(block.epoch).value.id);
    if records.Found? then records.value else []
  }

  /** A failed weighting pass is passed on before anything is imported. */
  lemma WeightingErrorPropagates(passing: FeePassing, store: Store, env: Collaborators, block: Block, firstSlot: int, e: ExternalError)
    requires RewardInputsPresent(block) && ReachesFirstBlock(store, block)
    requires store.firstBlockOfEpoch(block.epoch) == Found(Some(firstSlot))
    requires Weigh(env, block, store.findLedger(block.epoch).value, LedgerEntries(store, block), firstSlot) == Failure(e)
    ensures Run(passing, store, env, block).0 == Aborted(External(e))
    ensures Imports(Run(passing, store, env, block).1) == []
  {
    RunImports(passing, store, env, block);
  }

  /**
   * Once the weighting pass and the delegator mapper succeed, the run is
   * ready to split with the first record's fee, the block reward, the
   * weights of the weighted records and the mapper's drafts.
   */
  lemma ReadyPlanIsWeighted(store: Store, env: Collaborators, block: Block, firstSlot: int,
                            weighted: seq<StakingRecord>, drafts: seq<BlockReward>)
    requires RewardInputsPresent(block) && ReachesFirstBlock(store, block)
    requires store.firstBlockOfEpoch(block.epoch) == Found(Some(firstSlot))
    requires Weigh(env, block, store.findLedger(block.epoch).value, LedgerEntries(store, block), firstSlot)
             == Success(weighted)
    requires env.delegatorBlockRewards(weighted, block) == Success(drafts)
    ensures Prepare(store, env, block).0
            == Ready(Plan(store.validatorEpochs(block.epoch, block.creator).value[0].validatorFee,
                          BlockRewardOf(block), WeightMap(weighted), drafts))
  {
  }

  /**
   * The converse: a run only gets ready to split after the first block was
   * found and the weighting pass and the delegator mapper succeeded, and
   * its plan is made of their results.
   */
  lemma ReadyOnlyAfterWeighing(store: Store, env: Collaborators, block: Block)
    requires RewardInputsPresent(block) && Prepare(store, env, block).0.Ready?
    ensures ReachesFirstBlock(store, block)
    ensures store.firstBlockOfEpoch(block.epoch).Found? && store.firstBlockOfEpoch(block.epoch).value.Some?
    ensures var plan := Prepare(store, env, block).0.plan;
            var weighed := Weigh(env, block, store.findLedger(block.epoch).value, LedgerEntries(store, block),
                                 store.firstBlockOfEpoch(block.epoch).value.value);
            && weighed.Success?
            && plan.weights == WeightMap(weighed.value)
            && env.delegatorBlockRewards(weighed.value, block) == Success(plan.drafts)
  {
  }

  /** A failed delegator mapper is passed on before anything is imported. */
  lemma DelegatorMapperErrorPropagates(passing: FeePassing, store: Store, env: Collaborators, block: Block,
                                       firstSlot: int, weighted: seq<StakingRecord>, e: ExternalError)
    requires RewardInputsPresent(block) && ReachesFirstBlock(store, block)
    requires store.firstBlockOfEpoch(block.epoch) == Found(Some(firstSlot))
    requires Weigh(env, block, store.findLedger(block.epoch).value, LedgerEntries(store, block), firstSlot)
             == Success(weighted)
    requires env.delegatorBlockRewards(weighted, block) == Failure(e)
    ensures Run(passing, store, env, block).0 == Aborted(External(e))
    ensures Imports(Run(passing, store, env, block).1) == []
  {
    RunImports(passing, store, env, block);
  }

  /** The split reads nothing of the helpers but the validator mapper. */
  lemma DistributeReadsValidatorMapper(passing: FeePassing, store: Store, env: Collaborators, env': Collaborators,
                                       block: Block, plan: Plan)
    requires env'.validatorBlockReward == env.validatorBlockReward
    ensures Distribute(passing, store, env', block, plan) == Distribute(passing, store, env, block, plan)
  {
  }

  /** Two helper sets whose weighting passes agree give the same run. */
  lemma RunReadsWeighing(passing: FeePassing, store: Store, env: Collaborators, env': Collaborators, block: Block)
    requires env'.delegatorBlockRewards == env.delegatorBlockRewards
    requires env'.validatorBlockReward == env.validatorBlockReward
    requires forall ledger, records, firstSlot ::
               Weigh(env', block, ledger, records, firstSlot) == Weigh(env, block, ledger, records, firstSlot)
    ensures Run(passing, store, env', block) == Run(passing, store, env, block)
  {
    if RewardInputsPresent(block) {
      assert Prepare(store, env', block) == Prepare(store, env, block);
      var stage := Prepare(store, env, block).0;
      if stage.Ready? {
        DistributeReadsValidatorMapper(passing, store, env, env', block, stage.plan);
      }
    }
  }

  /** A non-supercharged block never consults the supercharged policy. */
  lemma PlainBlockIgnoresSuperchargedPolicy(passing: FeePassing, store: Store, env: Collaborators, block: Block,
                                            factor: Block -> Result<real, ExternalError>,
                                            policy: (real, seq<StakingRecord>, int) -> Result<seq<StakingRecord>, ExternalError>)
    requires !block.supercharged
    ensures Run(passing, store, env.(superchargedWeighting := factor, weightsSupercharged := policy), block)
            == Run(passing, store, env, block)
  {
    RunReadsWeighing(passing, store, env, env.(superchargedWeighting := factor, weightsSupercharged := policy), block);
  }

  /** A supercharged block never consults the plain proportional policy. */
  lemma SuperchargedBlockIgnoresPlainPolicy(passing: FeePassing, store: Store, env: Collaborators, block: Block,
                                            policy: (Amount, seq<StakingRecord>) -> Result<seq<StakingRecord>, ExternalError>)
    requires block.supercharged
    ensures Run(passing, store, env.(weightsNonSupercharged := policy), block) == Run(passing, store, env, block)
  {
    RunReadsWeighing(passing, store, env, env.(weightsNonSupercharged := policy), block);
  }

  /**
   * Nothing is imported unless the run got through every lookup and the
   * weighting pass and filled in every delegator reward; the first import is
   * then exactly the filled-in delegator rewards.
   */
  lemma ImportsOnlyAfterFullSplit(passing: FeePassing, store: Store, env: Collaborators, block: Block)
    requires Imports(Run(passing, store, env, block).1) != []
    ensures RewardInputsPresent(block) && Prepare(store, env, block).0.Ready?
    ensures var plan := Prepare(store, env, block).0.plan;
            var filled := FillPlan(passing, plan);
            filled.Success? && Imports(Run(passing, store, env, block).1)[0] == filled.value.rewards
  {
    if RewardInputsPresent(block) {
      RunImports(passing, store, env, block);
      var stage := Prepare(store, env, block).0;
      if stage.Ready? {
        var d := Distribute(passing, store, env, block, stage.plan);
        AllImports(d.1);
      }
    }
  }

  /** A delegator without a weight stops the run before any import. */
  lemma MissingWeightImportsNothing(passing: FeePassing, store: Store, env: Collaborators, block: Block, owner: PublicKey)
    requires Run(passing, store, env, block).0 == Aborted(RecordNotFound(owner))
    ensures Imports(Run(passing, store, env, block).1) == []
    ensures RewardInputsPresent(block) && Prepare(store, env, block).0.Ready?
    ensures var plan := Prepare(store, env, block).0.plan;
            exists i :: 0 <= i < |plan.drafts| && plan.drafts[i].ownerAccount == owner && owner !in plan.weights
  {
    RunImports(passing, store, env, block);
    var plan := Prepare(store, env, block).0.plan;
    assert FillPlan(passing, plan).Failure?;
  }

  /**
   * A completed run imports twice: first every delegator reward, then a
   * one-element list holding the validator's drafted record with its reward
   * taken at the fee the delegator loop left.
   */
  lemma CompletedRunImportsTwice(passing: FeePassing, store: Store, env: Collaborators, block: Block)
    requires Run(passing, store, env, block).0 == Done && Imports(Run(passing, store, env, block).1) != []
    ensures RewardInputsPresent(block) && Prepare(store, env, block).0.Ready?
    ensures env.validatorBlockReward(block).Success?
    ensures var plan := Prepare(store, env, block).0.plan;
            var imports := Imports(Run(passing, store, env, block).1);
            && |imports| == 2
            && imports[0] == FillPlan(passing, plan).value.rewards
            && store.importRewards(imports[0]).None? && store.importRewards(imports[1]).None?
            && |imports[1]| == 1
            && imports[1][0] == env.validatorBlockReward(block).value.(reward := imports[1][0].reward)
            && Calculate.CalculateValidatorReward(BlockRewardOf(block), FeeSeen(passing, |plan.drafts|, plan.fee))
               == Success(imports[1][0].reward)
  {
    ImportsOnlyAfterFullSplit(passing, store, env, block);
    RunImports(passing, store, env, block);
    var plan := Prepare(store, env, block).0.plan;
    AllImports(Distribute(passing, store, env, block, plan).1);
  }

  /** The validator record a run imports last, when every step before it succeeds. */
  function ValidatorRecord(passing: FeePassing, env: Collaborators, block: Block, plan: Plan): BlockReward
    requires env.validatorBlockReward(block).Success?
  {
    var reward := Calculate.CalculateValidatorReward(plan.blockReward, FeeSeen(passing, |plan.drafts|, plan.fee));
    env.validatorBlockReward(block).value.(reward := if reward.Success? then reward.value else 0.0)
  }

  /**
   * A run whose lookups, weighting, delegator loop, validator draft and both
   * imports all succeed ends in success, having imported twice.
   */
  lemma SuccessfulRunIsDone(passing: FeePassing, store: Store, env: Collaborators, block: Block)
    requires RewardInputsPresent(block) && Prepare(store, env, block).0.Ready?
    requires var plan := Prepare(store, env, block).0.plan;
             var filled := FillPlan(passing, plan);
             && filled.Success? && store.importRewards(filled.value.rewards).None?
             && env.validatorBlockReward(block).Success?
             && store.importRewards([ValidatorRecord(passing, env, block, plan)]).None?
    ensures Run(passing, store, env, block).0 == Done
    ensures |Imports(Run(passing, store, env, block).1)| == 2
  {
    RunImports(passing, store, env, block);
    var plan := Prepare(store, env, block).0.plan;
    var d := Distribute(passing, store, env, block, plan);
    AllImports(d.1);
    assert plan.blockReward.Some?;
    assert |d.1| == 2;
    assert d.1[1].rewards == [ValidatorRecord(passing, env, block, plan)];
  }

  /**
   * A successful run that imports nothing was deferred: the reward inputs
   * were missing, or the fee was found and the ledger was not.
   */
  lemma DeferredRunImportsNothing(passing: FeePassing, store: Store, env: Collaborators, block: Block)
    requires Run(passing, store, env, block).0 == Done && Imports(Run(passing, store, env, block).1) == []
    ensures !RewardInputsPresent(block) || (FeeFound(store, block) && store.findLedger(block.epoch) == NotFound)
  {
    if RewardInputsPresent(block) {
      RunImports(passing, store, env, block);
      assert Prepare(store, env, block).0.Exit?;
    }
  }

  /** A failed delegator import ends the run with its error; nothing else is imported. */
  lemma DelegatorImportErrorStops(passing: FeePassing, store: Store, env: Collaborators, block: Block,
                                  e: ExternalError)
    requires RewardInputsPresent(block) && Prepare(store, env, block).0.Ready?
    requires var filled := FillPlan(passing, Prepare(store, env, block).0.plan);
             filled.Success? && store.importRewards(filled.value.rewards) == Some(e)
    ensures Run(passing, store, env, block).0 == Aborted(External(e))
    ensures Imports(Run(passing, store, env, block).1)
            == [FillPlan(passing, Prepare(store, env, block).0.plan).value.rewards]
  {
    RunImports(passing, store, env, block);
    AllImports(Distribute(passing, store, env, block, Prepare(store, env, block).0.plan).1);
  }

  /**
   * The delegator rewards are imported before the validator's reward is even
   * drafted: a failure drafting it leaves the delegator import written.
   */
  lemma ValidatorFailureFollowsDelegatorImport(passing: FeePassing, store: Store, env: Collaborators, block: Block, e: ExternalError)
    requires RewardInputsPresent(block) && Prepare(store, env, block).0.Ready?
    requires var plan := Prepare(store, env, block).0.plan;
             var filled := FillPlan(passing, plan);
             filled.Success? && store.importRewards(filled.value.rewards).None?
    requires env.validatorBlockReward(block) == Failure(e)
    ensures Run(passing, store, env, block).0 == Aborted(External(e))
    ensures var plan := Prepare(store, env, block).0.plan;
            Imports(Run(passing, store, env, block).1)
            == [FillPlan(passing, plan).value.rewards]
  {
    RunImports(passing, store, env, block);
    var plan := Prepare(store, env, block).0.plan;
    AllImports(Distribute(passing, store, env, block, plan).1);
  }

  /** An import error is returned unchanged, whichever of the two imports fails. */
  lemma ImportErrorPropagates(passing: FeePassing, store: Store, env: Collaborators, block: Block)
    requires RewardInputsPresent(block) && Prepare(store, env, block).0.Ready?
    requires var imports := Imports(Run(passing, store, env, block).1);
             |imports| > 0 && store.importRewards(imports[|imports| - 1]).Some?
    ensures var imports := Imports(Run(passing, store, env, block).1);
            Run(passing, store, env, block).0 == Aborted(External(store.importRewards(imports[|imports| - 1]).value))
  {
    RunImports(passing, store, env, block);
    var plan := Prepare(store, env, block).0.plan;
    AllImports(Distribute(passing, store, env, block, plan).1);
  }

  /**
   * With the fee passed by value, the filled-in rewards add up to the
   * delegators' share of their weights' sum.
   */
  lemma {:induction false} FilledRewardsTotal(drafts: seq<BlockReward>, weights: map<PublicKey, real>, blockReward: int, fee: real)
    requires AllWeighted(drafts, weights)
    ensures var filled := FillDelegatorRewards(ByValue, drafts, weights, Some(blockReward), fee);
            filled.Success?
            && TotalReward(filled.value.rewards)
               == Calculate.CalculateDelegatorReward(Calculate.Sum(OwnerWeights(drafts, weights)), Some(blockReward), fee).value
  {
    var filled := FillDelegatorRewards(ByValue, drafts, weights, Some(blockReward), fee);
    var ws := OwnerWeights(drafts, weights);
    if |drafts| == 0 {
      assert Calculate.CalculateDelegatorReward(0.0, Some(blockReward), fee).value == 0.0;
    } else {
      assert AllWeighted(drafts[1..], weights) by {
        forall i | 0 <= i < |drafts| - 1
          ensures drafts[1..][i].ownerAccount in weights
        {
          assert drafts[1..][i] == drafts[i + 1];
        }
      }
      FilledRewardsTotal(drafts[1..], weights, blockReward, fee);
      var rest := FillDelegatorRewards(ByValue, drafts[1..], weights, Some(blockReward), fee);
      assert filled.value.rewards == [filled.value.rewards[0]] + rest.value.rewards;
      assert filled.value.rewards[1..] == rest.value.rewards;
      assert ws[1..] == OwnerWeights(drafts[1..], weights);
      assert filled.value.rewards[0].reward
             == Calculate.CalculateDelegatorReward(ws[0], Some(blockReward), fee).value;
      Calculate.DelegatorRewardAdditive(ws[0], Calculate.Sum(ws[1..]), blockReward, fee);
    }
  }

  /**
   * Exactness of a completed run with the fee passed by value: when the
   * delegators' weights add up to 1, the two imports together pay out
   * exactly coinbase plus transaction fees minus SNARK-job fees.
   */
  lemma CompletedRunIsExact(store: Store, env: Collaborators, block: Block)
    requires Run(ByValue, store, env, block).0 == Done && Imports(Run(ByValue, store, env, block).1) != []
    requires RewardInputsPresent(block) && Prepare(store, env, block).0.Ready?
    requires var plan := Prepare(store, env, block).0.plan;
             AllWeighted(plan.drafts, plan.weights) && Calculate.Sum(OwnerWeights(plan.drafts, plan.weights)) == 1.0
    ensures var imports := Imports(Run(ByValue, store, env, block).1);
            |imports| == 2 && |imports[1]| == 1
            && TotalReward(imports[0]) + imports[1][0].reward
               == (block.coinbase.value + block.transactionsFees.value - block.snarkJobsFees.value) as real
  {
    CompletedRunImportsTwice(ByValue, store, env, block);
    var plan := Prepare(store, env, block).0.plan;
    var reward := block.coinbase.value + block.transactionsFees.value - block.snarkJobsFees.value;
    FilledRewardsTotal(plan.drafts, plan.weights, reward, plan.fee);
    Calculate.Complementarity(reward, plan.fee);
  }

  /**
   * A completed run as written pays what the as-written split pays: the
   * i-th delegator at the fee rescaled i times, the validator at the fee
   * rescaled once per delegator (see FeeAliasing.AliasedSplitLosesReward for
   * what that comes to).
   */
  lemma CompletedRunAsWritten(store: Store, env: Collaborators, block: Block)
    requires Run(Shared, store, env, block).0 == Done && Imports(Run(Shared, store, env, block).1) != []
    ensures RewardInputsPresent(block) && Prepare(store, env, block).0.Ready?
    ensures AllWeighted(Prepare(store, env, block).0.plan.drafts, Prepare(store, env, block).0.plan.weights)
    ensures var plan := Prepare(store, env, block).0.plan;
            var split := FeeAliasing.SplitInPlace(OwnerWeights(plan.drafts, plan.weights),
                                                  block.coinbase.value + block.transactionsFees.value - block.snarkJobsFees.value,
                                                  plan.fee);
            var imports: seq<seq<BlockReward>> := Imports(Run(Shared, store, env, block).1);
            && |imports| == 2 && |imports[0]| == |split.0| && |imports[1]| == 1
            && (forall i :: 0 <= i < |split.0| ==> imports[0][i].reward == split.0[i])
            && imports[1][0].reward == split.1
  {
    CompletedRunImportsTwice(Shared, store, env, block);
    var plan := Prepare(store, env, block).0.plan;
    var reward := block.coinbase.value + block.transactionsFees.value - block.snarkJobsFees.value;
    var imports: seq<seq<BlockReward>> := Imports(Run(Shared, store, env, block).1);
    var ws := OwnerWeights(plan.drafts, plan.weights);
    var loop := FeeAliasing.DelegatorLoopInPlace(ws, reward, plan.fee);
    assert FeeAliasing.SplitInPlace(ws, reward, plan.fee).0 == loop.0;
    var v := FeeAliasing.SplitInPlace(ws, reward, plan.fee).1;
    assert 100.0 * v == 100.0 * imports[1][0].reward;
  }
}

=== FILE: wrappers.dfy ===
/** Failure-carrying datatypes shared by the reward model. */
module Wrappers {

  /** A value that may be absent; stands for a nil pointer in the source. */
  datatype Option<+T> = None | Some(value: T)

  /** The outcome of a computation that returns either a value or an error. */
  datatype Result<+R, +E> = Success(value: R) | Failure(error: E)

}
